=== FILE: README.md ===
# Ant colony optimisation for the travelling salesman problem

This project models the algorithmic core of `Task4/main.js`, a browser page
where a user clicks points on a canvas and an Ant Colony Optimisation (ACO)
heuristic searches for a short closed tour through them. It covers:

- the distance table built by `calcDist` and `createGraph`;
- one run of `antColonyOptimizationTSP`: the uniform starting pheromone
  matrix, each ant's start city, the roulette-wheel choice of every next
  city, the deposit of `q / d` on every edge taken in both directions, the
  closed tour length, the closing deposit, the evaporation with a floor of
  `0.0001`, the strict-`<` best tracking, and the merge at the end of an
  iteration;
- the outer loop of `startOptimization`. It refuses fewer than two points,
  calls `antColonyOptimizationTSP` once per outer iteration with a single
  inner iteration, and keeps the strictly shorter result.

Numbers are Dafny `real`, so arithmetic is exact. Every `Math.random()`
value is an explicit input (`AntDraws`: one draw for the start city and one
per further city). `Math.sqrt` is a function parameter `sqrt`.

The model reproduces how the source shares its pheromone storage. At
line 83 each ant gets `pheromoneMatrix.slice()`, which copies only the outer
array, so every ant's matrix shares its rows with the global one. The model
therefore has a single shared matrix:

- each ant's deposits and evaporation change it;
- the next ant's selection at line 101 reads those changes;
- the merge of lines 161-168 adds up `numAnts` copies of the same entry, so
  every entry is scaled by `1 - rate + numAnts`. `Pheromone.MergeSharedAsWritten`
  proves that the merge as written, applied to `numAnts` aliased copies, is
  this scaling.

Modules, in dependency order:

- `Wrappers`: `Option` and `Result`.
- `Matrices`: square real matrices and their predicates.
- `Reals`: the product helper `Mul`, `Max` and `Pow`, with the facts about them the proofs use.
- `Cities`: cities as `0..n-1`, and permutations.
- `Graph`: points, `CalcDist` and `CreateGraph`.
- `Tours`: tours and their closed length.
- `Pheromone`: the initial matrix, deposit, evaporation and merge.
- `Selection`: weights, normalisation and the roulette scan.
- `Ants`: one ant's walk.
- `Best`: best tracking and its specification.
- `Colony`: `antColonyOptimizationTSP`.
- `Optimize`: `startOptimization`.

Textbook ACO evaporates one global matrix once per iteration and keeps it
across iterations. The code differs from that in two places, and the model
follows the code:

- Each ant evaporates the shared matrix after its own tour (lines 146-151),
  and the merge then reads that matrix after all ants have deposited and
  evaporated. It is not a separate pre-evaporation base plus per-ant deposits.
- The pheromone matrix is re-created on every call (line 64), and
  `startOptimization` asks for one inner iteration per call (line 229). So
  pheromone does not carry over between the outer iterations.

Line 102 has no guard for a zero denominator. The model proves instead that
the denominator is positive while an unvisited city remains.

The outer loop interleaves each call with the comparison. The model computes
the per-call results first (`Optimize.CallBests`) and then scans them
(`Best.KeepShortest`). The two orders give the same result under one
assumption: no other event handler runs during the pause at line 242. Under
that assumption the settings and the distance table stay as lines 211-222 set
them. The only state one call could then pass to the next is the global
pheromone matrix, and line 64 overwrites it at the start of every call.

## Model

| member | source | states |
|---|---|---|
| Graph.SquaredDistSymmetric | Task4/main.js:41-44 | Swapping the two points leaves `dx*dx + dy*dy` unchanged. |
| Graph.SquaredDistPositive | Task4/main.js:41-44 | Two different points have a positive squared distance. |
| Graph.CalcDist | Task4/main.js:41-45 | The distance does not depend on the order of the two points. It is positive for two different points when `sqrt` maps positive numbers to positive numbers. |
| Graph.CreateGraph | Task4/main.js:48-59 | The table is n by n and symmetric for any square root. Its diagonal is `sqrt(0)`. When the points are distinct and `sqrt` maps positives to positives, every off-diagonal entry is positive. |
| Tours.OpenLength | Task4/main.js:135-138 | The sum of the edges between consecutive cities. It is never negative over a non-negative table. `Tours.OpenLengthAppend` ties it to the left-to-right loop. |
| Tours.TourLength | Task4/main.js:135-139 | The open length plus the closing edge back to the first city. A one-city tour is that city's own loop, and no tour over a non-negative table is negative. |
| Tours.OpenLengthAppend | Task4/main.js:135-138 | Appending a city to a path adds exactly the edge from the old last city to it. |
| Tours.TourLengthReverse | Task4/main.js:135-139 | With a symmetric table, a path and its reverse have the same closed tour length. |
| Tours.TwoCityTourLength | Task4/main.js:135-139 | With two cities, every tour is `2 * d[0][1]` long. |
| Pheromone.InitialPheromone | Task4/main.js:64-72 | Every entry is `1 / (n * numAnts)`: it times `n * numAnts` is 1. The matrix is symmetric and positive. |
| Pheromone.Deposit | Task4/main.js:127-128 | Both `[a][b]` and `[b][a]` grow by the amount, and no other entry changes. Symmetry is kept, and so is positivity when the amount is non-negative. |
| Pheromone.Evaporate | Task4/main.js:146-151 | Afterwards every entry is at least `0.0001`. Symmetry is kept. With a non-negative rate, no entry at or above the floor grows. |
| Pheromone.EvaporateTimesClosedForm | Task4/main.js:146-151 | `k` evaporations in a row equal one evaporation by `(1 - rate)^k`, floored at `0.0001`. This holds for any matrix when `k >= 1`, so at `k = 1` it gives the value of each entry after one evaporation, `max((1 - rate) * m[i][j], 0.0001)`. |
| Pheromone.Copies | Task4/main.js:81-84 | There are `k` ant matrices, and each reads as the global matrix, because `slice()` shares its rows. |
| Pheromone.SumOfCopies | Task4/main.js:163-166 | Summing entry `[i][j]` over `k` aliased copies of one matrix gives `k` times that entry. |
| Pheromone.MergeShared | Task4/main.js:161-168 | Each entry becomes `(1 - rate + numAnts)` times itself and depends on no other entry. Symmetry is kept. With at least one ant, a rate of at most 1 and non-negative entries, no entry decreases. |
| Pheromone.Merge | Task4/main.js:161-168 | The merge as written: the decayed entry of the global matrix plus the same entry of every ant matrix. With no ant matrices, it is the decay by `1 - rate` alone. `Pheromone.MergeSharedAsWritten` gives its value on the aliased copies. |
| Pheromone.MergeSharedAsWritten | Task4/main.js:83-168 | The merge as written, applied to the `numAnts` shallow copies made at line 83, equals `MergeShared`. |
| Selection.DenominatorPositive | Task4/main.js:98-107 | The denominator is positive as soon as one weight is positive and none is negative. |
| Selection.Normalize | Task4/main.js:108 | Each probability times the denominator gives back its weight. A positive denominator keeps non-negative weights non-negative. |
| Selection.CumulativeSumNormalized | Task4/main.js:108-115 | Each cumulative sum of the normalised probabilities is the cumulative weight divided by the denominator. |
| Selection.Roulette | Task4/main.js:112-120 | A result is the first index whose cumulative probability exceeds the draw. No result means no cumulative probability exceeds it. |
| Selection.RouletteLandsOnWeight | Task4/main.js:108-120 | For a draw in `[0, 1)` and non-negative weights with a positive total, the scan always sets `next`. The chosen city has a positive weight, and `draw * denominator` lies in its cumulative slot. |
| Selection.Select | Task4/main.js:97-120 | The picked index is in range and has a positive weight. Its slot holds `draw * denominator`, and it is the scan's result. |
| Ants.SourceParams | Task4/main.js:8-14 | The settings the page uses meet the model's assumptions: at least one ant, a rate in `[0, 1]` and a non-negative `q`. |
| Ants.StartCity | Task4/main.js:90 | `Math.floor(random * n)` is a city `c` with `c <= random * n < c + 1`. |
| Ants.Weight | Task4/main.js:100-106 | A visited city weighs 0. An unvisited city with a positive trail from the current city has a positive weight. |
| Ants.Weights | Task4/main.js:97-107 | There is one weight per city. Visited cities weigh 0. With positive pheromone, every unvisited city has a positive weight. |
| Ants.ChooseNext | Task4/main.js:97-123 | With positive pheromone and some city unvisited, roulette selection returns an unvisited city. That city has a positive weight, and the draw times the total weight lies in its slot of the cumulative weights. |
| Ants.Step | Task4/main.js:95-131 | The walk invariant is kept and the path grows by one unvisited city. `visited` gains exactly that city. That city has a positive weight, and the draw lies in its roulette slot. The edge taken gets `q / d` in both directions and nothing else changes. Positivity and symmetry are kept. |
| Ants.BuildPath | Task4/main.js:95-132 | After the city loop, the path has `n` cities and extends the starting path. The walk invariant, positivity and symmetry hold. |
| Ants.WalkComplete | Task4/main.js:88-132 | A finished walk's path is a permutation of `0..n-1`, and `visited` is the set of all cities. |
| Ants.AntTour | Task4/main.js:88-151 | One ant yields a permutation tour that starts at its start city and whose length is the closed tour length. Afterwards every entry is at least `0.0001`, and symmetry is kept. |
| Best.Improve | Task4/main.js:154-157 | The new best is the old best or the new tour, and never longer than either. An old best that is no longer than the new tour is kept, so ties keep the earlier tour. |
| Best.ImproveExtends | Task4/main.js:154-157 | If the best is the earliest shortest of the tours so far, one more strict-`<` update makes it the earliest shortest of the tours plus the new one. |
| Best.KeepShortest | Task4/main.js:227-235 | Scanning results in order, keeping only strictly shorter ones, yields the earliest shortest result, or nothing for no results. |
| Best.FirstShortestUnique | Task4/main.js:154-157 | The earliest-shortest specification admits only one answer. |
| Best.BestNeverIncreases | Task4/main.js:154-157 | After more tours, the best length is at most the earlier best length. |
| Colony.RunAnts | Task4/main.js:87-158 | The ants run one after another on the shared matrix. Each adds one valid tour, in order, and the best stays the earliest shortest. After at least one ant, every entry is at least the floor. |
| Colony.Iteration | Task4/main.js:79-169 | One iteration adds exactly `numAnts` valid tours after the earlier ones. It keeps the matrix symmetric and positive, and leaves every entry at least the floor. |
| Colony.Iterations | Task4/main.js:79-170 | The iterations run in order. They keep the colony invariant (a symmetric positive matrix, valid tours and the earliest shortest best), and they only append tours. |
| Colony.IterationsTourCount | Task4/main.js:79-170 | `k` iterations of `numAnts` ants add `Times(k, numAnts)` tours. |
| Colony.TimesIsProduct | Task4/main.js:79-87 | `Times(k, a)`, the count of `k` rounds of `a` ants, is `k * a`. |
| Colony.Start | Task4/main.js:64-76 | The run starts with no tours, no best and a matrix that satisfies the invariant. |
| Colony.AntColonyOptimizationTSP | Task4/main.js:62-173 | There is no tour exactly when there are no iterations (`[undefined, Infinity]`). Otherwise the result is a valid tour, and it is the earliest shortest of all the tours the ants found. |
| Colony.TwoCityResult | Task4/main.js:62-173 | With two cities and at least one iteration, the best length is `2 * d[0][1]`. |
| Optimize.CallBest | Task4/main.js:229 | A call with one inner iteration always returns a tour. |
| Optimize.CallBests | Task4/main.js:227-229 | There is one result per outer iteration, and each is what that call returns. |
| Optimize.CallBestsValid | Task4/main.js:227-229 | Each call's result is a valid tour of the points. |
| Optimize.StartOptimization | Task4/main.js:215-235 | Fewer than two points give an error, whatever the number of iterations. Otherwise there is no tour exactly when there are no iterations, and the result is the earliest shortest of the per-call results. That is a valid tour of the points. |

## Left out

- Canvas and DOM setup (lines 1-5), and the mouse handler (lines 19-38), which draws a dot and appends the clicked point at line 37: the model takes the resulting sequence as its `points` input.
- `drawPath` (lines 176-206): it draws. Its throw at line 183 is covered by the `Optimize.StartOptimization` line below.
- `reset` (lines 253-258): it clears the canvas and empties `points`. The model takes the points as an input and has no page state between runs.
- `Optimize.StartOptimization`: with zero outer iterations, the page throws where the model returns `Success(None)`. Line 246 calls `drawPath(undefined, true)`, and line 183 then reads `path.length` of `undefined` and throws a `TypeError`, so the alert at line 249 is never shown. `Success(None)` is the state just before that throw.
- `alert`, `console.log` and reading the form fields with `parseInt` (lines 211-213, 217, 240-249): the settings are the `Params` input.
- The `async`/`await` and `setTimeout` pacing, and with it any handler that runs during the pause at line 242. The model assumes that no other handler runs then. Without that assumption, a second click on start during the pause runs lines 211-213 and 222 again. That overwrites the globals `numIterations`, `alpha`, `beta` and `distances`, and `distances` may then cover points added at line 37. The first run re-reads `numIterations` at line 227 and passes `distances`, `alpha` and `beta` at line 229, so its remaining calls would use the new values.
- Floating-point rounding, `Infinity` and `NaN`: the model computes over exact reals. "No tour yet" is `None` instead of `Infinity`.
- `Math.random`: its values are the `AntDraws` inputs, each in `[0, 1)`.
- `Math.sqrt`: it is the parameter `sqrt`. Positive distances assume only that `sqrt` maps positive numbers to positive numbers.
- `Math.pow`: it is `Pow` with natural exponents, since `alpha` and `beta` come from `parseInt`.
- Negative or non-numeric `alpha`, `beta` and iteration counts: exponents are `nat`, and the number of outer iterations is the number of draw blocks.
- Duplicate points: they give a zero distance and an infinite weight at line 101, so the model requires distinct points.
- A direct call of `antColonyOptimizationTSP` with fewer than two cities: `startOptimization` never makes one, so `Colony` requires `n >= 2`.
- Settings outside `numAnts >= 1`, `0 <= rate <= 1` and `q >= 0` (`Ants.ValidParams`): the source's own values, 10, 0.5 and 100, meet them (`Ants.SourceParams`).
- The unused global `initialPheromone = 5` (line 15), which line 65 shadows.
- The order of the additions in the tour length (lines 135-139): the model sums the edges from the front, where the source adds them left to right. Over exact reals the two sums are equal.
- Ants.BuildPath: its contract does not repeat the roulette slot of each city it adds. Every city is added by `Ants.Step`, and its contract states the slot.
- Ants.AntTour: its contract does not repeat the roulette slot of each city on the tour. Every city is added by `Ants.Step`, and its contract states the slot.

=== FILE: ant.dfy ===
/** One ant of `antColonyOptimizationTSP` (lines 87-157): the start city, the
    walk over unvisited cities with a deposit on every edge taken, the closed
    tour length, the closing deposit and the evaporation. All of it acts on
    the single shared pheromone matrix. */
module Ants {
  import opened Matrices
  import opened Reals
  import opened Cities
  import opened Tours
  import opened Pheromone
  import opened Selection

  /** The settings of lines 8-14 and 212-213 that the algorithm reads.
      `alpha` and `beta` are natural exponents. */
  datatype Params = Params(numAnts: nat, rate: real, alpha: nat, beta: nat, q: real)

  /** What the rest of the model assumes of the settings: at least one ant, an
      evaporation rate in `[0, 1]` and a non-negative deposit constant. The
      source's values (10 ants, rate 0.5, q = 100) satisfy it. */
  predicate ValidParams(prm: Params) {
    prm.numAnts >= 1 && 0.0 <= prm.rate <= 1.0 && prm.q >= 0.0
  }

  /** The settings `startOptimization` passes: 10 ants, rate 0.5 and q = 100
      (lines 8, 10 and 14) with the `alpha` and `beta` read from the form. */
  function SourceParams(alpha: nat, beta: nat): (prm: Params)
    ensures ValidParams(prm)
    ensures prm.alpha == alpha && prm.beta == beta
  {
    Params(10, 0.5, alpha, beta, 100.0)
  }

  /** The `Math.random()` values one ant consumes: one for its start city
      (line 90) and one per further city (line 111). */
  datatype AntDraws = AntDraws(start: real, picks: seq<real>)

  predicate ValidDraws(dr: AntDraws, n: nat) {
    && 0.0 <= dr.start < 1.0
    && |dr.picks| == n - 1
    && forall k :: 0 <= k < |dr.picks| ==> 0.0 <= dr.picks[k] < 1.0
  }

  /** Line 90: `Math.floor(random * n)`, always a city. */
  function StartCity(s: real, n: nat): (c: nat)
    requires 0.0 <= s < 1.0 && n >= 1
    ensures c < n
    ensures c as real <= Mul(s, n as real) < c as real + 1.0
  {
    MulBelow(s, n as real);
    Mul(s, n as real).Floor
  }

  /** Line 101 for city `j`, or 0 for a visited city (line 105). An unvisited
      city on a positive trail weighs something. */
  function Weight(pher: Matrix, d: Matrix, n: nat, current: nat, visited: set<nat>,
                  alpha: nat, beta: nat, j: nat): (w: real)
    requires IsSquare(pher, n) && PositiveOffDiagonal(d, n)
    requires current < n && current in visited && j < n
    ensures j in visited ==> w == 0.0
    ensures j !in visited && pher[current][j] > 0.0 ==> w > 0.0
  {
    if j in visited then 0.0
    else
      var w := Mul(Pow(pher[current][j], alpha), Pow(1.0 / d[current][j], beta));
      assert pher[current][j] > 0.0 ==> w > 0.0 by {
        if pher[current][j] > 0.0 {
          DivCompare(1.0, d[current][j], 0.0);
          MulPositive(Pow(pher[current][j], alpha), Pow(1.0 / d[current][j], beta));
        }
      }
      w
  }

  /** The `probabilities` array of lines 97-107 before normalisation: a visited
      city weighs nothing, and with positive pheromone every unvisited city
      weighs something. */
  function Weights(pher: Matrix, d: Matrix, n: nat, current: nat, visited: set<nat>,
                   alpha: nat, beta: nat): (w: seq<real>)
    requires IsSquare(pher, n) && PositiveOffDiagonal(d, n)
    requires current < n && current in visited
    ensures |w| == n
    ensures forall j :: 0 <= j < n && j in visited ==> w[j] == 0.0
    ensures AllPositive(pher, n) ==> forall j :: 0 <= j < n && j !in visited ==> w[j] > 0.0
    ensures AllPositive(pher, n) ==> NonNegative(w)
  {
    seq(n, j requires 0 <= j < n => Weight(pher, d, n, current, visited, alpha, beta, j))
  }

  /** An ant part-way through lines 95-132: the shared pheromone matrix, its
      `path` so far and its `visited` set. The current city is the last one. */
  datatype Walk = Walk(pher: Matrix, path: seq<nat>, visited: set<nat>)

  /** `path` is a non-empty repetition-free sequence of cities and `visited`
      holds exactly its cities. */
  predicate WalkInv(wk: Walk, n: nat) {
    && 1 <= |wk.path| <= n
    && InRange(wk.path, n)
    && Distinct(wk.path)
    && |wk.visited| == |wk.path|
    && (forall c :: c in wk.visited ==> c in wk.path)
    && (forall k :: 0 <= k < |wk.path| ==> wk.path[k] in wk.visited)
  }

  function Current(wk: Walk): nat
    requires |wk.path| >= 1
  {
    wk.path[|wk.path| - 1]
  }

  /** Lines 97-120: the city the roulette wheel picks for draw `r`. While a
      city is unvisited and the pheromone is positive, the pick is a city the
      ant has not visited yet, and `r` times the total weight falls in its
      slot of the cumulative weights: each city is picked with probability
      proportional to its weight. */
  function ChooseNext(pher: Matrix, d: Matrix, n: nat, current: nat, visited: set<nat>,
                      alpha: nat, beta: nat, r: real): (next: nat)
    requires AllPositive(pher, n) && PositiveOffDiagonal(d, n)
    requires current < n && current in visited
    requires (forall c :: c in visited ==> c < n) && |visited| < n
    requires 0.0 <= r < 1.0
    ensures next < n && next !in visited
    ensures var w := Weights(pher, d, n, current, visited, alpha, beta);
      && w[next] > 0.0
      && CumulativeSum(w, next) <= Mul(r, CumulativeSum(w, n)) < CumulativeSum(w, next + 1)
  {
    var w := Weights(pher, d, n, current, visited, alpha, beta);
    UnvisitedExists(visited, n);
    var u :| 0 <= u < n && u !in visited;
    DenominatorPositive(w, u);
    Select(w, r)
  }

  /** Appending an unvisited city keeps the walk invariant. */
  lemma WalkExtend(wk: Walk, n: nat, next: nat, pher: Matrix)
    requires WalkInv(wk, n) && next < n && next !in wk.visited
    ensures WalkInv(Walk(pher, wk.path + [next], wk.visited + {next}), n)
  {
    var path := wk.path + [next];
    assert |path| <= n by {
      forall c | c in wk.visited
        ensures c < n
      {
        var k :| 0 <= k < |wk.path| && wk.path[k] == c;
      }
      SubsetCard(wk.visited + {next}, Range(n));
    }
    forall c | c in wk.visited + {next}
      ensures c in path
    {
      if c != next {
        var k :| 0 <= k < |wk.path| && wk.path[k] == c;
        assert path[k] == c;
      }
    }
  }

  /** One pass of the loop of lines 95-132 with draw `r`: pick `next`, extend
      `path` and `visited`, and deposit `q / d` both ways on the edge taken. */
  function Step(wk: Walk, d: Matrix, n: nat, prm: Params, r: real): (after: Walk)
    requires WalkInv(wk, n) && |wk.path| < n
    requires AllPositive(wk.pher, n) && PositiveOffDiagonal(d, n)
    requires prm.q >= 0.0 && 0.0 <= r < 1.0
    ensures WalkInv(after, n)
    ensures |after.path| == |wk.path| + 1 && after.path[..|wk.path|] == wk.path
    ensures Current(after) !in wk.visited
    ensures after.visited == wk.visited + {Current(after)}
    ensures var w := Weights(wk.pher, d, n, Current(wk), wk.visited, prm.alpha, prm.beta);
      var b := Current(after);
      && w[b] > 0.0
      && CumulativeSum(w, b) <= Mul(r, CumulativeSum(w, n)) < CumulativeSum(w, b + 1)
    ensures AllPositive(after.pher, n)
    ensures Symmetric(wk.pher, n) ==> Symmetric(after.pher, n)
    ensures var a := Current(wk); var b := Current(after);
      && after.pher[a][b] == wk.pher[a][b] + prm.q / d[a][b]
      && after.pher[b][a] == wk.pher[b][a] + prm.q / d[a][b]
      && forall i, j :: 0 <= i < n && 0 <= j < n && !(i == a && j == b) && !(i == b && j == a) ==>
           after.pher[i][j] == wk.pher[i][j]
  {
    VisitedInRange(wk, n);
    var next := ChooseNext(wk.pher, d, n, Current(wk), wk.visited, prm.alpha, prm.beta, r);
    StepKeeps(wk, d, n, prm.q, next);
    Walk(Deposit(wk.pher, n, Current(wk), next, prm.q / d[Current(wk)][next]), wk.path + [next], wk.visited + {next})
  }

  /** Moving to an unvisited city `next` and depositing on the edge taken
      keeps the walk invariant and the matrix positive and symmetric. */
  lemma StepKeeps(wk: Walk, d: Matrix, n: nat, q: real, next: nat)
    requires WalkInv(wk, n) && AllPositive(wk.pher, n) && PositiveOffDiagonal(d, n)
    requires q >= 0.0 && next < n && next !in wk.visited
    ensures Current(wk) < n && Current(wk) != next
    ensures var a := Current(wk);
      var after := Walk(Deposit(wk.pher, n, a, next, q / d[a][next]), wk.path + [next], wk.visited + {next});
      && WalkInv(after, n)
      && |after.path| == |wk.path| + 1 && after.path[..|wk.path|] == wk.path
      && Current(after) == next
      && AllPositive(after.pher, n)
      && (Symmetric(wk.pher, n) ==> Symmetric(after.pher, n))
  {
    VisitedInRange(wk, n);
    var a := Current(wk);
    DivCompare(q, d[a][next], 0.0);
    assert q / d[a][next] >= 0.0;
    WalkExtend(wk, n, next, Deposit(wk.pher, n, a, next, q / d[a][next]));
    assert (wk.path + [next])[..|wk.path|] == wk.path;
  }

  /** The current city is visited and every visited city is a city. */
  lemma VisitedInRange(wk: Walk, n: nat)
    requires WalkInv(wk, n)
    ensures Current(wk) in wk.visited
    ensures forall c :: c in wk.visited ==> c < n
  {
    forall c | c in wk.visited
      ensures c < n
    {
      var k :| 0 <= k < |wk.path| && wk.path[k] == c;
    }
  }

  /** The whole loop of lines 95-132: one draw per remaining city. */
  function BuildPath(wk: Walk, d: Matrix, n: nat, prm: Params, picks: seq<real>): (done: Walk)
    requires WalkInv(wk, n) && |picks| == n - |wk.path|
    requires AllPositive(wk.pher, n) && PositiveOffDiagonal(d, n) && prm.q >= 0.0
    requires forall k :: 0 <= k < |picks| ==> 0.0 <= picks[k] < 1.0
    ensures WalkInv(done, n) && |done.path| == n
    ensures done.path[..|wk.path|] == wk.path
    ensures AllPositive(done.pher, n)
    ensures Symmetric(wk.pher, n) ==> Symmetric(done.pher, n)
    decreases |picks|
  {
    if |picks| == 0 then
      wk
    else
      var after := Step(wk, d, n, prm, picks[0]);
      var done := BuildPath(after, d, n, prm, picks[1..]);
      PrefixOfPrefix(done.path, after.path, wk.path);
      done
  }

  /** A walk that has taken `n` cities has visited each city exactly once. */
  lemma WalkComplete(wk: Walk, n: nat)
    requires WalkInv(wk, n) && |wk.path| == n
    ensures IsPermutation(wk.path, n)
    ensures wk.visited == Range(n)
  {
    forall c | c in wk.visited
      ensures c < n
    {
      var k :| 0 <= k < |wk.path| && wk.path[k] == c;
    }
    VisitedCoversAll(wk.visited, n);
  }

  /** What one ant leaves behind: the shared matrix after its deposits and
      evaporation, and its tour. */
  datatype AntOutcome = AntOutcome(pher: Matrix, tour: Tour)

  /** Lines 88-151 for one ant. The tour visits every city once and carries
      its closed length; afterwards every pheromone entry is at least the
      floor, and a symmetric matrix stays symmetric. */
  function AntTour(pher: Matrix, d: Matrix, n: nat, prm: Params, dr: AntDraws): (out: AntOutcome)
    requires n >= 2 && AllPositive(pher, n) && PositiveOffDiagonal(d, n)
    requires prm.q >= 0.0 && ValidDraws(dr, n)
    ensures ValidTour(out.tour, d, n)
    ensures out.tour.path[0] == StartCity(dr.start, n)
    ensures AllAtLeast(out.pher, n, Floor)
    ensures Symmetric(pher, n) ==> Symmetric(out.pher, n)
  {
    var start := StartCity(dr.start, n);
    var done := BuildPath(Walk(pher, [start], {start}), d, n, prm, dr.picks);
    WalkComplete(done, n);
    var path := done.path;
    assert path[0] == path[..1][0];
    var last := path[n - 1];
    var closing := prm.q / d[last][path[0]];
    var deposited := Deposit(done.pher, n, last, path[0], closing);
    AntOutcome(Evaporate(deposited, n, prm.rate), Tour(path, TourLength(d, n, path)))
  }
}

=== FILE: best.dfy ===
/** Keeping the best tour: the strict `<` comparisons of lines 154-157 and
    232-235, with `None` for the initial `undefined` tour of length `Infinity`
    (lines 75-76 and 224-225). */
module Best {
  import opened Wrappers
  import opened Tours

  /** `if (length < bestLength) { best = tour }`. The result is never longer than
      the old best or the candidate, and a tie keeps the old best. */
  function Improve(best: Option<Tour>, t: Tour): (b: Option<Tour>)
    ensures b == best || b == Some(t)
    ensures b.Some? && b.value.length <= t.length
    ensures best.Some? ==> b.value.length <= best.value.length
    ensures best.Some? && best.value.length <= t.length ==> b == best
  {
    if best.None? || t.length < best.value.length then Some(t) else best
  }

  /** `ts[k]` is a shortest tour of `ts` and every tour before it is strictly longer. */
  predicate FirstShortestAt(ts: seq<Tour>, k: nat) {
    && k < |ts|
    && (forall l :: 0 <= l < |ts| ==> ts[k].length <= ts[l].length)
    && (forall l :: 0 <= l < k ==> ts[l].length > ts[k].length)
  }

  /** The specification of best tracking over the tours `ts` in the order they
      were found: nothing for no tours, otherwise the earliest shortest one. */
  predicate FirstShortest(b: Option<Tour>, ts: seq<Tour>) {
    && (b.None? <==> |ts| == 0)
    && (b.Some? ==> exists k {:trigger FirstShortestAt(ts, k)} :: 0 <= k < |ts| && FirstShortestAt(ts, k) && ts[k] == b.value)
  }

  /** One more `Improve` keeps the best the earliest shortest tour. */
  lemma ImproveExtends(b: Option<Tour>, ts: seq<Tour>, t: Tour)
    requires FirstShortest(b, ts)
    ensures FirstShortest(Improve(b, t), ts + [t])
  {
    var us := ts + [t];
    if |ts| == 0 {
      assert FirstShortestAt(us, 0) && us[0] == t;
    } else {
      var k :| 0 <= k < |ts| && FirstShortestAt(ts, k) && ts[k] == b.value;
      if t.length < b.value.length {
        assert FirstShortestAt(us, |ts|) && us[|ts|] == t;
      } else {
        assert FirstShortestAt(us, k) && us[k] == b.value;
      }
    }
  }

  /** `ImproveExtends` for a growing prefix of a known sequence of tours. */
  lemma ImproveTakesOneMore(b: Option<Tour>, ts: seq<Tour>, k: nat)
    requires k < |ts| && FirstShortest(b, ts[..k])
    ensures FirstShortest(Improve(b, ts[k]), ts[..k + 1])
  {
    TakeOneMore(ts, k);
    ImproveExtends(b, ts[..k], ts[k]);
  }

  /** The comparison loop of `startOptimization`: walk the results in order
      and keep one only when it is strictly shorter than the best so far. */
  method KeepShortest(ts: seq<Tour>) returns (best: Option<Tour>)
    ensures FirstShortest(best, ts)
  {
    best := None;
    var i := 0;
    while i < |ts|
      invariant 0 <= i <= |ts|
      invariant FirstShortest(best, ts[..i])
    {
      ImproveTakesOneMore(best, ts, i);
      best := Improve(best, ts[i]);
      i := i + 1;
    }
    assert ts[..|ts|] == ts;
  }

  /** The kept tour is one of the tours found. */
  lemma KeptIsFound(b: Option<Tour>, ts: seq<Tour>)
    requires FirstShortest(b, ts) && b.Some?
    ensures exists k :: 0 <= k < |ts| && ts[k] == b.value
  {
  }

  lemma TakeOneMore<T>(s: seq<T>, k: nat)
    requires k < |s|
    ensures s[..k + 1] == s[..k] + [s[k]]
  {
  }

  /** The specification pins the answer down: two results that both meet it
      are equal. */
  lemma FirstShortestUnique(b1: Option<Tour>, b2: Option<Tour>, ts: seq<Tour>)
    requires FirstShortest(b1, ts) && FirstShortest(b2, ts)
    ensures b1 == b2
  {
    if b1.Some? {
      var k1 :| 0 <= k1 < |ts| && FirstShortestAt(ts, k1) && ts[k1] == b1.value;
      var k2 :| 0 <= k2 < |ts| && FirstShortestAt(ts, k2) && ts[k2] == b2.value;
      if k1 != k2 {
        // each would have to be strictly shorter than the other
        assert false;
      }
    }
  }

  /** The best length never increases as more tours are found. */
  lemma BestNeverIncreases(b1: Option<Tour>, ts: seq<Tour>, b2: Option<Tour>, more: seq<Tour>)
    requires FirstShortest(b1, ts) && FirstShortest(b2, ts + more) && |ts| >= 1
    ensures b1.Some? && b2.Some? && b2.value.length <= b1.value.length
  {
    var k1 :| 0 <= k1 < |ts| && FirstShortestAt(ts, k1) && ts[k1] == b1.value;
    var k2 :| 0 <= k2 < |ts + more| && FirstShortestAt(ts + more, k2) && (ts + more)[k2] == b2.value;
    assert (ts + more)[k1] == ts[k1];
  }
}

=== FILE: cities.dfy ===
/** Cities are the indices `0..n-1`; this module says when a sequence of them
    is a tour (a permutation) and proves the counting facts tour building needs. */
module Cities {

  /** The set of all cities `{0, ..., n-1}`. */
  function Range(n: nat): (s: set<nat>)
    ensures forall c :: c in s <==> 0 <= c < n
    ensures |s| == n
  {
    if n == 0 then {} else Range(n - 1) + {n - 1}
  }

  predicate Distinct(path: seq<nat>) {
    forall k, l :: 0 <= k < l < |path| ==> path[k] != path[l]
  }

  /** `path` visits each city of `0..n-1` exactly once. */
  predicate IsPermutation(path: seq<nat>, n: nat) {
    && |path| == n
    && (forall k :: 0 <= k < |path| ==> path[k] < n)
    && Distinct(path)
    && (forall c :: 0 <= c < n ==> c in path)
  }

  lemma SubsetCard<T>(a: set<T>, b: set<T>)
    requires a <= b
    ensures |a| <= |b|
  {
    assert b == a + (b - a);
    assert a * (b - a) == {};
  }

  /** Fewer than `n` visited cities leave some city unvisited. */
  lemma UnvisitedExists(visited: set<nat>, n: nat)
    requires forall c :: c in visited ==> c < n
    requires |visited| < n
    ensures exists c :: 0 <= c < n && c !in visited
  {
    if forall c :: 0 <= c < n ==> c in visited {
      SubsetCard(Range(n), visited);
      assert false;
    }
  }

  /** `n` visited cities, all below `n`, are all the cities. */
  lemma VisitedCoversAll(visited: set<nat>, n: nat)
    requires forall c :: c in visited ==> c < n
    requires |visited| == n
    ensures visited == Range(n)
  {
    if c :| 0 <= c < n && c !in visited {
      SubsetCard(visited, Range(n) - {c});
      assert false;
    }
  }

  /** A prefix of a prefix is a prefix. */
  lemma PrefixOfPrefix<T>(a: seq<T>, b: seq<T>, c: seq<T>)
    requires |c| <= |b| <= |a| && a[..|b|] == b && b[..|c|] == c
    ensures a[..|c|] == c
  {
    assert a[..|c|] == a[..|b|][..|c|];
  }
}

=== FILE: colony.dfy ===
/** `antColonyOptimizationTSP` (lines 62-173): the pheromone matrix starts
    uniform, every iteration lets the ants walk one after another on the
    shared matrix and then merges, and the shortest tour found is kept. */
module Colony {
  import opened Wrappers
  import opened Matrices
  import opened Cities
  import opened Tours
  import opened Pheromone
  import opened Ants
  import opened Best

  /** The run so far: the shared pheromone matrix, every tour found in the
      order the ants found them, and the best one kept. */
  datatype ColonyState = ColonyState(pher: Matrix, tours: seq<Tour>, best: Option<Tour>)

  /** The distance tables the algorithm is defined on: at least two cities and
      a positive distance between any two of them. */
  predicate ValidDistances(d: Matrix, n: nat) {
    n >= 2 && PositiveOffDiagonal(d, n)
  }

  /** A symmetric positive pheromone matrix, every tour valid, and `best` the
      earliest shortest of them. */
  predicate ColonyInv(c: ColonyState, d: Matrix, n: nat) {
    && Symmetric(c.pher, n)
    && AllPositive(c.pher, n)
    && (forall k {:trigger ValidTour(c.tours[k], d, n)} :: 0 <= k < |c.tours| ==> ValidTour(c.tours[k], d, n))
    && FirstShortest(c.best, c.tours)
  }

  predicate ValidAntDraws(ds: seq<AntDraws>, n: nat) {
    forall a :: 0 <= a < |ds| ==> ValidDraws(ds[a], n)
  }

  /** Lines 87-158: the ants in order, each on the matrix its predecessors left. */
  function RunAnts(c: ColonyState, d: Matrix, n: nat, prm: Params, ds: seq<AntDraws>): (r: ColonyState)
    requires ColonyInv(c, d, n) && ValidDistances(d, n) && prm.q >= 0.0
    requires ValidAntDraws(ds, n)
    ensures ColonyInv(r, d, n)
    ensures |r.tours| == |c.tours| + |ds| && r.tours[..|c.tours|] == c.tours
    ensures |ds| >= 1 ==> AllAtLeast(r.pher, n, Floor)
    decreases |ds|
  {
    if |ds| == 0 then c
    else
      var before := RunAnts(c, d, n, prm, ds[..|ds| - 1]);
      var out := AntTour(before.pher, d, n, prm, ds[|ds| - 1]);
      var r := Record(before, out.pher, out.tour);
      RecordKeepsInv(before, out.pher, out.tour, d, n);
      PrefixOfPrefix(r.tours, before.tours, c.tours);
      r
  }

  /** After one ant: its matrix, its tour appended, and the best updated. */
  function Record(c: ColonyState, pher: Matrix, t: Tour): (r: ColonyState)
    ensures r.tours == c.tours + [t] && r.tours[..|c.tours|] == c.tours
    ensures r.pher == pher
  {
    ColonyState(pher, c.tours + [t], Improve(c.best, t))
  }

  lemma RecordKeepsInv(c: ColonyState, pher: Matrix, t: Tour, d: Matrix, n: nat)
    requires ColonyInv(c, d, n) && ValidTour(t, d, n)
    requires Symmetric(pher, n) && AllPositive(pher, n)
    ensures ColonyInv(Record(c, pher, t), d, n)
  {
    ImproveExtends(c.best, c.tours, t);
  }

  /** One pass of the loop of lines 79-170: the ants, then the merge of lines
      161-168. Afterwards every pheromone entry is at least the floor. */
  function Iteration(c: ColonyState, d: Matrix, n: nat, prm: Params, ds: seq<AntDraws>): (r: ColonyState)
    requires ColonyInv(c, d, n) && ValidDistances(d, n) && ValidParams(prm)
    requires |ds| == prm.numAnts && ValidAntDraws(ds, n)
    ensures ColonyInv(r, d, n)
    ensures AllAtLeast(r.pher, n, Floor)
    ensures |r.tours| == |c.tours| + prm.numAnts && r.tours[..|c.tours|] == c.tours
  {
    var after := RunAnts(c, d, n, prm, ds);
    MergeKeepsInv(after, d, n, prm.numAnts, prm.rate);
    ColonyState(MergeShared(after.pher, n, prm.numAnts, prm.rate), after.tours, after.best)
  }

  /** Replacing the matrix by its merge keeps the invariant, and an entry at
      least the floor stays at least the floor. */
  lemma MergeKeepsInv(c: ColonyState, d: Matrix, n: nat, numAnts: nat, rate: real)
    requires ColonyInv(c, d, n) && AllAtLeast(c.pher, n, Floor)
    requires numAnts >= 1 && 0.0 <= rate <= 1.0
    ensures ColonyInv(ColonyState(MergeShared(c.pher, n, numAnts, rate), c.tours, c.best), d, n)
    ensures AllAtLeast(MergeShared(c.pher, n, numAnts, rate), n, Floor)
  {
  }

  /** `k * a` as `k` additions of `a`: the number of tours `k` iterations of `a` ants find. */
  function Times(k: nat, a: nat): nat {
    if k == 0 then 0 else Times(k - 1, a) + a
  }

  lemma {:induction false} TimesIsProduct(k: nat, a: nat)
    ensures Times(k, a) == k * a
  {
    if k > 0 {
      TimesIsProduct(k - 1, a);
    }
  }

  lemma TimesPositive(k: nat, a: nat)
    requires k >= 1 && a >= 1
    ensures Times(k, a) >= 1
  {
  }

  /** Random draws for every ant of every iteration. */
  predicate ValidRunDraws(draws: seq<seq<AntDraws>>, n: nat, numAnts: nat) {
    forall it :: 0 <= it < |draws| ==> |draws[it]| == numAnts && ValidAntDraws(draws[it], n)
  }

  lemma RunDrawsPrefix(draws: seq<seq<AntDraws>>, n: nat, numAnts: nat)
    requires ValidRunDraws(draws, n, numAnts) && |draws| >= 1
    ensures ValidRunDraws(draws[..|draws| - 1], n, numAnts)
    ensures |draws[|draws| - 1]| == numAnts && ValidAntDraws(draws[|draws| - 1], n)
  {
  }

  /** The iterations in order, one block of draws each. */
  function Iterations(c: ColonyState, d: Matrix, n: nat, prm: Params, draws: seq<seq<AntDraws>>): (r: ColonyState)
    requires ColonyInv(c, d, n) && ValidDistances(d, n) && ValidParams(prm)
    requires ValidRunDraws(draws, n, prm.numAnts)
    ensures ColonyInv(r, d, n)
    ensures |r.tours| >= |c.tours| && r.tours[..|c.tours|] == c.tours
    decreases |draws|
  {
    if |draws| == 0 then c
    else
      var front := draws[..|draws| - 1];
      RunDrawsPrefix(draws, n, prm.numAnts);
      var before := Iterations(c, d, n, prm, front);
      var r := Iteration(before, d, n, prm, draws[|draws| - 1]);
      PrefixOfPrefix(r.tours, before.tours, c.tours);
      r
  }

  /** Every ant of every iteration contributes exactly one tour. */
  lemma {:induction false} IterationsTourCount(c: ColonyState, d: Matrix, n: nat, prm: Params, draws: seq<seq<AntDraws>>)
    requires ColonyInv(c, d, n) && ValidDistances(d, n) && ValidParams(prm)
    requires ValidRunDraws(draws, n, prm.numAnts)
    ensures |Iterations(c, d, n, prm, draws).tours| == |c.tours| + Times(|draws|, prm.numAnts)
    decreases |draws|
  {
    if |draws| > 0 {
      RunDrawsPrefix(draws, n, prm.numAnts);
      var front := draws[..|draws| - 1];
      IterationsTourCount(c, d, n, prm, front);
      var before := Iterations(c, d, n, prm, front);
      assert Iterations(c, d, n, prm, draws) == Iteration(before, d, n, prm, draws[|draws| - 1]);
      var r := Iteration(before, d, n, prm, draws[|draws| - 1]);
      assert |r.tours| == |before.tours| + prm.numAnts;
      assert |before.tours| == |c.tours| + Times(|front|, prm.numAnts);
      assert |front| == |draws| - 1;
      assert Times(|draws|, prm.numAnts) == Times(|draws| - 1, prm.numAnts) + prm.numAnts;
    }
  }

  /** Lines 64-72: the uniform starting matrix, with no tours and no best yet. */
  function Start(n: nat, numAnts: nat): (c: ColonyState)
    requires n >= 1 && numAnts >= 1
    ensures forall d :: ColonyInv(c, d, n)
    ensures c.tours == [] && c.best.None?
  {
    ColonyState(InitialPheromone(n, numAnts), [], None)
  }

  /** Every tour the run finds, with the final state. */
  function ColonyRun(d: Matrix, n: nat, prm: Params, draws: seq<seq<AntDraws>>): (r: ColonyState)
    requires ValidDistances(d, n) && ValidParams(prm) && ValidRunDraws(draws, n, prm.numAnts)
    ensures ColonyInv(r, d, n)
    ensures |r.tours| == Times(|draws|, prm.numAnts)
  {
    IterationsTourCount(Start(n, prm.numAnts), d, n, prm, draws);
    Iterations(Start(n, prm.numAnts), d, n, prm, draws)
  }

  /** `antColonyOptimizationTSP` with `|draws|` iterations: no tour for no
      iterations (`[undefined, Infinity]`, line 172), otherwise a valid tour
      that is the earliest shortest of all the tours the ants found. */
  function AntColonyOptimizationTSP(d: Matrix, n: nat, prm: Params, draws: seq<seq<AntDraws>>): (best: Option<Tour>)
    requires ValidDistances(d, n) && ValidParams(prm) && ValidRunDraws(draws, n, prm.numAnts)
    ensures best.None? <==> |draws| == 0
    ensures best.Some? ==> ValidTour(best.value, d, n)
    ensures FirstShortest(best, ColonyRun(d, n, prm, draws).tours)
  {
    var r := ColonyRun(d, n, prm, draws);
    KeptTourValid(r, d, n);
    if |draws| >= 1 then TimesPositive(|draws|, prm.numAnts); r.best else r.best
  }

  /** The kept tour is one of the tours found, so it is valid too. */
  lemma KeptTourValid(c: ColonyState, d: Matrix, n: nat)
    requires ColonyInv(c, d, n)
    ensures c.best.Some? ==> ValidTour(c.best.value, d, n)
  {
    if c.best.Some? {
      var k :| 0 <= k < |c.tours| && FirstShortestAt(c.tours, k) && c.tours[k] == c.best.value;
    }
  }

  /** With two cities every tour is `0 -> 1 -> 0` or its reverse, so the best
      length is twice the one distance. */
  lemma TwoCityResult(d: Matrix, prm: Params, draws: seq<seq<AntDraws>>)
    requires ValidDistances(d, 2) && Symmetric(d, 2) && ValidParams(prm)
    requires ValidRunDraws(draws, 2, prm.numAnts) && |draws| >= 1
    ensures AntColonyOptimizationTSP(d, 2, prm, draws).Some?
    ensures AntColonyOptimizationTSP(d, 2, prm, draws).value.length == 2.0 * d[0][1]
  {
    TwoCityTourLength(d, AntColonyOptimizationTSP(d, 2, prm, draws).value.path);
  }
}

=== FILE: graph.dfy ===
/** The distance table built from the clicked points (`calcDist`, `createGraph`).
    `Math.sqrt` is not modelled: the square root is a parameter `sqrt`, and each
    property of the table names the one fact about `sqrt` it needs. */
module Graph {
  import opened Matrices
  import opened Reals

  datatype Point = Point(x: real, y: real)

  /** `dx*dx + dy*dy`, the argument `calcDist` passes to `Math.sqrt`. */
  function SquaredDist(p1: Point, p2: Point): real {
    var dx := p2.x - p1.x;
    var dy := p2.y - p1.y;
    Mul(dx, dx) + Mul(dy, dy)
  }

  /** Swapping the points negates `dx` and `dy`, which the squares cancel. */
  lemma SquaredDistSymmetric(p1: Point, p2: Point)
    ensures SquaredDist(p1, p2) == SquaredDist(p2, p1)
  {
    MulNegNeg(p2.x - p1.x, p2.x - p1.x);
    MulNegNeg(p2.y - p1.y, p2.y - p1.y);
  }

  /** Two different points are a positive squared distance apart. */
  lemma SquaredDistPositive(p1: Point, p2: Point)
    requires p1 != p2
    ensures SquaredDist(p1, p2) > 0.0
  {
    var dx := p2.x - p1.x;
    var dy := p2.y - p1.y;
    SquareNonNegative(dx);
    SquareNonNegative(dy);
    if dx != 0.0 {
      SquarePositive(dx);
    } else {
      SquarePositive(dy);
    }
  }

  /** `calcDist`: the square root of the squared distance. It does not depend
      on the order of the points, and it is positive for two different points
      when `sqrt` maps positives to positives. */
  function CalcDist(p1: Point, p2: Point, sqrt: real -> real): (r: real)
    ensures r == sqrt(SquaredDist(p2, p1))
    ensures SqrtPositive(sqrt) && p1 != p2 ==> r > 0.0
  {
    SquaredDistSymmetric(p1, p2);
    assert p1 != p2 ==> SquaredDist(p1, p2) > 0.0 by {
      if p1 != p2 {
        SquaredDistPositive(p1, p2);
      }
    }
    sqrt(SquaredDist(p1, p2))
  }

  ghost predicate SqrtPositive(sqrt: real -> real) {
    forall x :: x > 0.0 ==> sqrt(x) > 0.0
  }

  predicate DistinctPoints(points: seq<Point>) {
    forall i, j :: 0 <= i < |points| && 0 <= j < |points| && i != j ==> points[i] != points[j]
  }

  /** The n-by-n table whose row `i` holds the distances from point `i`. It is
      symmetric whatever the square root is, because both entries of a pair
      take the square root of the same number; its diagonal is `sqrt(0)`; and
      distinct points are a positive distance apart when the square root of a
      positive number is positive. */
  function CreateGraph(points: seq<Point>, sqrt: real -> real): (g: Matrix)
    ensures Symmetric(g, |points|)
    ensures forall i :: 0 <= i < |points| ==> g[i][i] == sqrt(0.0)
    ensures DistinctPoints(points) && SqrtPositive(sqrt) ==> PositiveOffDiagonal(g, |points|)
  {
    var n := |points|;
    var g := seq(n, i requires 0 <= i < n => seq(n, j requires 0 <= j < n => CalcDist(points[i], points[j], sqrt)));
    forall i, j | 0 <= i < n && 0 <= j < n
      ensures g[i][j] == g[j][i]
    {
      SquaredDistSymmetric(points[i], points[j]);
    }
    forall i, j | 0 <= i < n && 0 <= j < n && i != j && DistinctPoints(points)
      ensures SquaredDist(points[i], points[j]) > 0.0
    {
      SquaredDistPositive(points[i], points[j]);
    }
    g
  }
}

=== FILE: matrices.dfy ===
/** Square tables of reals, the shape of both the distance table and the
    pheromone matrix. Rows are `seq`s, so every update builds a new value. */
module Matrices {

  type Matrix = seq<seq<real>>

  /** `m` has `n` rows of `n` entries each. */
  predicate IsSquare(m: Matrix, n: nat) {
    |m| == n && forall i :: 0 <= i < n ==> |m[i]| == n
  }

  predicate Symmetric(m: Matrix, n: nat) {
    IsSquare(m, n) && forall i, j :: 0 <= i < n && 0 <= j < n ==> m[i][j] == m[j][i]
  }

  predicate AllPositive(m: Matrix, n: nat) {
    IsSquare(m, n) && forall i, j :: 0 <= i < n && 0 <= j < n ==> m[i][j] > 0.0
  }

  predicate AllAtLeast(m: Matrix, n: nat, lo: real) {
    IsSquare(m, n) && forall i, j :: 0 <= i < n && 0 <= j < n ==> m[i][j] >= lo
  }

  /** Every entry off the diagonal is strictly positive: the cities are distinct. */
  predicate PositiveOffDiagonal(m: Matrix, n: nat) {
    IsSquare(m, n) && forall i, j :: 0 <= i < n && 0 <= j < n && i != j ==> m[i][j] > 0.0
  }

  /** The JavaScript statement `m[i][j] += x`. */
  function AddAt(m: Matrix, n: nat, i: nat, j: nat, x: real): (r: Matrix)
    requires IsSquare(m, n) && i < n && j < n
    ensures IsSquare(r, n)
    ensures r[i][j] == m[i][j] + x
    ensures forall a, b :: 0 <= a < n && 0 <= b < n && (a != i || b != j) ==> r[a][b] == m[a][b]
  {
    m[i := m[i][j := m[i][j] + x]]
  }
}

=== FILE: optimize.dfy ===
/** The loop of `startOptimization` (lines 215-235): it refuses fewer than two
    points, builds the distance table, calls `antColonyOptimizationTSP` once
    per iteration with a single iteration each time (so every call starts
    from a fresh pheromone matrix), and keeps the strictly shorter result. */
module Optimize {
  import opened Wrappers
  import opened Matrices
  import opened Graph
  import opened Tours
  import opened Ants
  import opened Best
  import opened Colony

  /** Line 216: the `alert` for fewer than two points, after which nothing runs. */
  datatype Error = TooFewPoints

  /** What the call of line 229 returns for one block of draws. With at least
      one ant there is always a tour. */
  function CallBest(d: Matrix, n: nat, prm: Params, ds: seq<AntDraws>): (t: Tour)
    requires ValidDistances(d, n) && ValidParams(prm)
    requires |ds| == prm.numAnts && ValidAntDraws(ds, n)
    ensures AntColonyOptimizationTSP(d, n, prm, [ds]) == Some(t)
  {
    assert ValidRunDraws([ds], n, prm.numAnts);
    AntColonyOptimizationTSP(d, n, prm, [ds]).value
  }

  /** The results of the calls, one per outer iteration, in order. */
  function CallBests(d: Matrix, n: nat, prm: Params, draws: seq<seq<AntDraws>>): (ts: seq<Tour>)
    requires ValidDistances(d, n) && ValidParams(prm) && ValidRunDraws(draws, n, prm.numAnts)
    ensures |ts| == |draws|
    ensures forall it :: 0 <= it < |draws| ==>
      AntColonyOptimizationTSP(d, n, prm, [draws[it]]) == Some(ts[it])
  {
    seq(|draws|, it requires 0 <= it < |draws| => CallBest(d, n, prm, draws[it]))
  }

  /** Every result of a call is a valid tour of the cities. */
  lemma CallBestsValid(d: Matrix, n: nat, prm: Params, draws: seq<seq<AntDraws>>, k: nat)
    requires ValidDistances(d, n) && ValidParams(prm) && ValidRunDraws(draws, n, prm.numAnts)
    requires k < |draws|
    ensures ValidTour(CallBests(d, n, prm, draws)[k], d, n)
  {
    assert ValidRunDraws([draws[k]], n, prm.numAnts);
  }

  /** `startOptimization` without the drawing: an error for fewer than two
      points, otherwise the earliest shortest of the per-call results, which
      is a valid tour of the points unless there were no iterations. */
  method StartOptimization(points: seq<Point>, sqrt: real -> real, prm: Params, draws: seq<seq<AntDraws>>)
    returns (res: Result<Option<Tour>, Error>)
    requires DistinctPoints(points) && SqrtPositive(sqrt) && ValidParams(prm)
    requires |points| >= 2 ==> ValidRunDraws(draws, |points|, prm.numAnts)
    ensures |points| < 2 ==> res == Failure(TooFewPoints)
    ensures |points| >= 2 ==> res.Success? && (res.value.None? <==> |draws| == 0)
    ensures |points| >= 2 && res.Success? ==>
      FirstShortest(res.value, CallBests(CreateGraph(points, sqrt), |points|, prm, draws))
    ensures |points| >= 2 && res.Success? && res.value.Some? ==>
      ValidTour(res.value.value, CreateGraph(points, sqrt), |points|)
  {
    if |points| < 2 {
      return Failure(TooFewPoints);
    }
    var distances := CreateGraph(points, sqrt);
    var results := CallBests(distances, |points|, prm, draws);
    var best := KeepShortest(results);
    if best.Some? {
      KeptIsFound(best, results);
      var k :| 0 <= k < |results| && results[k] == best.value;
      CallBestsValid(distances, |points|, prm, draws, k);
    }
    return Success(best);
  }
}

=== FILE: pheromone.dfy ===
/** The pheromone matrix and the three ways the source changes it: deposits
    (lines 127-128 and 142-143), evaporation with a floor (lines 146-151) and the
    end-of-iteration merge (lines 161-168). */
module Pheromone {
  import opened Matrices
  import opened Reals

  /** The lower bound `Math.max(..., 0.0001)` of line 149. */
  const Floor: real := 0.0001

  /** Line 65-72: every entry starts at `1 / (n * numAnts)`. */
  function InitialPheromone(n: nat, numAnts: nat): (m: Matrix)
    requires n >= 1 && numAnts >= 1
    ensures Symmetric(m, n) && AllPositive(m, n)
    ensures forall i, j :: 0 <= i < n && 0 <= j < n ==> Mul(m[i][j], (n * numAnts) as real) == 1.0
  {
    var v := 1.0 / ((n * numAnts) as real);
    seq(n, i requires 0 <= i < n => seq(n, j requires 0 <= j < n => v))
  }

  /** `m[a][b] += amount; m[b][a] += amount;`, in that order. */
  function Deposit(m: Matrix, n: nat, a: nat, b: nat, amount: real): (r: Matrix)
    requires IsSquare(m, n) && a < n && b < n
    ensures IsSquare(r, n)
    ensures a != b ==> r[a][b] == m[a][b] + amount && r[b][a] == m[b][a] + amount
    ensures a == b ==> r[a][a] == m[a][a] + 2.0 * amount
    ensures forall i, j :: 0 <= i < n && 0 <= j < n && !(i == a && j == b) && !(i == b && j == a) ==> r[i][j] == m[i][j]
    ensures Symmetric(m, n) ==> Symmetric(r, n)
    ensures AllPositive(m, n) && amount >= 0.0 ==> AllPositive(r, n)
  {
    AddAt(AddAt(m, n, a, b, amount), n, b, a, amount)
  }

  /** Every entry is scaled by `1 - rate` and then raised to at least `Floor`. */
  function Evaporate(m: Matrix, n: nat, rate: real): (r: Matrix)
    requires IsSquare(m, n)
    ensures AllAtLeast(r, n, Floor)
    ensures Symmetric(m, n) ==> Symmetric(r, n)
    ensures rate >= 0.0 ==> forall i, j :: 0 <= i < n && 0 <= j < n && m[i][j] >= Floor ==> r[i][j] <= m[i][j]
  {
    seq(n, i requires 0 <= i < n => seq(n, j requires 0 <= j < n => Max(Mul(1.0 - rate, m[i][j]), Floor)))
  }

  /** `k` evaporations in a row, with nothing deposited in between. */
  function EvaporateTimes(m: Matrix, n: nat, rate: real, k: nat): (r: Matrix)
    requires IsSquare(m, n)
    ensures IsSquare(r, n)
  {
    if k == 0 then m else Evaporate(EvaporateTimes(m, n, rate, k - 1), n, rate)
  }

  /** Repeated evaporation is one evaporation by `(1 - rate)^k`, floored: entries
      shrink geometrically down to the floor and never below. This holds for
      any square matrix once at least one evaporation has happened, and for no
      evaporation at all when the matrix is already at or above the floor. */
  lemma {:induction false} EvaporateTimesClosedForm(m: Matrix, n: nat, rate: real, k: nat)
    requires IsSquare(m, n) && (k >= 1 || AllAtLeast(m, n, Floor)) && 0.0 <= rate <= 1.0
    ensures forall i, j :: 0 <= i < n && 0 <= j < n ==>
      EvaporateTimes(m, n, rate, k)[i][j] == Max(Mul(Pow(1.0 - rate, k), m[i][j]), Floor)
  {
    if k == 1 {
      assert Pow(1.0 - rate, 1) == 1.0 - rate;
    } else if k > 1 {
      EvaporateTimesClosedForm(m, n, rate, k - 1);
      forall i, j | 0 <= i < n && 0 <= j < n
        ensures EvaporateTimes(m, n, rate, k)[i][j] == Max(Mul(Pow(1.0 - rate, k), m[i][j]), Floor)
      {
        EvaporateOnce(1.0 - rate, Pow(1.0 - rate, k - 1), m[i][j]);
      }
    }
  }

  /** One more evaporation by factor `c` of an entry already evaporated by factor `p`. */
  lemma EvaporateOnce(c: real, p: real, x: real)
    requires 0.0 <= c <= 1.0
    ensures Max(Mul(c, Max(Mul(p, x), Floor)), Floor) == Max(Mul(Mul(c, p), x), Floor)
  {
    MulAssoc(c, p, x);
    MulAtMost(c, Floor);
    if Mul(p, x) < Floor {
      MulMonotone(c, Mul(p, x), Floor);
    }
  }

  /** Sum over the ant matrices of entry `[i][j]`, added in ant order (line 165). */
  function SumAt(cs: seq<Matrix>, n: nat, i: nat, j: nat): real
    requires forall k :: 0 <= k < |cs| ==> IsSquare(cs[k], n)
    requires i < n && j < n
  {
    if |cs| == 0 then 0.0
    else
      var last := cs[|cs| - 1];
      assert IsSquare(last, n);
      SumAt(cs[..|cs| - 1], n, i, j) + last[i][j]
  }

  /** Lines 161-168 as written: `(1 - rate) * base[i][j]` plus the ants' entries. */
  function Merge(base: Matrix, cs: seq<Matrix>, n: nat, rate: real): (r: Matrix)
    requires IsSquare(base, n)
    requires forall k :: 0 <= k < |cs| ==> IsSquare(cs[k], n)
    ensures IsSquare(r, n)
    ensures |cs| == 0 ==> forall i, j :: 0 <= i < n && 0 <= j < n ==> r[i][j] == Mul(1.0 - rate, base[i][j])
  {
    seq(n, i requires 0 <= i < n => seq(n, j requires 0 <= j < n => Mul(1.0 - rate, base[i][j]) + SumAt(cs, n, i, j)))
  }

  /** The ants' matrices of line 83: `slice()` copies only the outer array, so
      all of them share their rows with the global matrix and read as `m`. */
  function Copies(m: Matrix, k: nat): (cs: seq<Matrix>)
    ensures |cs| == k && forall a :: 0 <= a < k ==> cs[a] == m
  {
    seq(k, a => m)
  }

  lemma {:induction false} SumOfCopies(m: Matrix, n: nat, k: nat, i: nat, j: nat)
    requires IsSquare(m, n) && i < n && j < n
    ensures SumAt(Copies(m, k), n, i, j) == Mul(k as real, m[i][j])
  {
    if k > 0 {
      assert Copies(m, k)[..k - 1] == Copies(m, k - 1);
      SumOfCopies(m, n, k - 1, i, j);
    }
  }

  /** The merge as it comes out on aliased rows: every entry scaled by
      `1 - rate + numAnts`, no entry depending on any other (see
      `MergeSharedAsWritten`). */
  function MergeShared(m: Matrix, n: nat, numAnts: nat, rate: real): (r: Matrix)
    requires IsSquare(m, n)
    ensures IsSquare(r, n)
    ensures forall i, j :: 0 <= i < n && 0 <= j < n ==> r[i][j] == Mul(1.0 - rate + numAnts as real, m[i][j])
    ensures Symmetric(m, n) ==> Symmetric(r, n)
    ensures numAnts >= 1 && rate <= 1.0 && AllAtLeast(m, n, 0.0) ==>
      forall i, j :: 0 <= i < n && 0 <= j < n ==> r[i][j] >= m[i][j]
  {
    var scale := 1.0 - rate + numAnts as real;
    var r := seq(n, i requires 0 <= i < n => seq(n, j requires 0 <= j < n => Mul(scale, m[i][j])));
    assert numAnts >= 1 && rate <= 1.0 && AllAtLeast(m, n, 0.0) ==>
      forall i, j :: 0 <= i < n && 0 <= j < n ==> r[i][j] >= m[i][j] by {
      if numAnts >= 1 && rate <= 1.0 && AllAtLeast(m, n, 0.0) {
        forall i, j | 0 <= i < n && 0 <= j < n
          ensures r[i][j] >= m[i][j]
        {
          MulAtLeast(scale, m[i][j]);
        }
      }
    }
    r
  }

  /** Lines 161-168 run on the ants' matrices of line 83, which all share
      their rows with `m`, compute exactly `MergeShared`. */
  lemma MergeSharedAsWritten(m: Matrix, n: nat, numAnts: nat, rate: real)
    requires IsSquare(m, n)
    ensures Merge(m, Copies(m, numAnts), n, rate) == MergeShared(m, n, numAnts, rate)
  {
    var merged := Merge(m, Copies(m, numAnts), n, rate);
    var shared := MergeShared(m, n, numAnts, rate);
    forall i | 0 <= i < n
      ensures merged[i] == shared[i]
    {
      forall j | 0 <= j < n
        ensures merged[i][j] == shared[i][j]
      {
        SumOfCopies(m, n, numAnts, i, j);
        MulDistributes(1.0 - rate, numAnts as real, m[i][j]);
      }
    }
  }
}

=== FILE: reals.dfy ===
/** Real-number helpers: `Math.max`, `Math.pow` with a natural exponent, and
    multiplication. Every product of two variables in the model goes through
    `Mul`, and the facts about products the proofs need are the lemmas here. */
module Reals {

  function Max(a: real, b: real): (m: real)
    ensures m >= a && m >= b
    ensures m == a || m == b
  {
    if a >= b then a else b
  }

  function Mul(a: real, b: real): real {
    a * b
  }

  /** `Math.pow(x, k)` for a natural exponent `k`. */
  function Pow(x: real, k: nat): (r: real)
    ensures x > 0.0 ==> r > 0.0
    ensures 0.0 <= x <= 1.0 ==> 0.0 <= r <= 1.0
  {
    if k == 0 then 1.0
    else
      var p := Pow(x, k - 1);
      if x > 0.0 then MulPositive(x, p); (if x <= 1.0 then MulAtMost(x, p); Mul(x, p) else Mul(x, p))
      else if x == 0.0 then MulAtMost(x, p); Mul(x, p)
      else Mul(x, p)
  }

  lemma MulPositive(a: real, b: real)
    requires a > 0.0 && b > 0.0
    ensures Mul(a, b) > 0.0
  {
  }

  lemma MulNonNegative(a: real, b: real)
    requires a >= 0.0 && b >= 0.0
    ensures Mul(a, b) >= 0.0
  {
  }

  lemma MulNegNeg(a: real, b: real)
    ensures Mul(-a, -b) == Mul(a, b)
  {
  }

  lemma MulAssoc(a: real, b: real, c: real)
    ensures Mul(a, Mul(b, c)) == Mul(Mul(a, b), c)
  {
  }

  /** `Mul` distributes over a sum in its first argument. */
  lemma MulDistributes(a: real, b: real, c: real)
    ensures Mul(a, c) + Mul(b, c) == Mul(a + b, c)
  {
  }

  /** A factor in `[0, 1]` does not increase a non-negative number. */
  lemma MulAtMost(a: real, b: real)
    requires 0.0 <= a <= 1.0 && b >= 0.0
    ensures 0.0 <= Mul(a, b) <= b
  {
    ProductAtMost(a, b);
  }

  lemma ProductAtMost(a: real, b: real)
    requires 0.0 <= a <= 1.0 && b >= 0.0
    ensures 0.0 <= a * b <= b
  {
  }

  /** A factor of at least 1 does not decrease a non-negative number. */
  lemma MulAtLeast(a: real, b: real)
    requires a >= 1.0 && b >= 0.0
    ensures Mul(a, b) >= b
  {
  }

  /** A non-negative factor preserves `<=`. */
  lemma MulMonotone(a: real, b: real, c: real)
    requires a >= 0.0 && b <= c
    ensures Mul(a, b) <= Mul(a, c)
  {
  }

  lemma SquareNonNegative(v: real)
    ensures Mul(v, v) >= 0.0
  {
    if v >= 0.0 {
      MulNonNegative(v, v);
    } else {
      MulNegNeg(v, v);
      MulNonNegative(-v, -v);
    }
  }

  lemma SquarePositive(v: real)
    requires v != 0.0
    ensures Mul(v, v) > 0.0
  {
    if v > 0.0 {
      MulPositive(v, v);
    } else {
      MulNegNeg(v, v);
      MulPositive(-v, -v);
    }
  }

  lemma MulBelow(a: real, b: real)
    requires 0.0 <= a < 1.0 && b > 0.0
    ensures 0.0 <= Mul(a, b) < b
  {
  }

  lemma DivAdd(a: real, b: real, d: real)
    requires d != 0.0
    ensures a / d + b / d == (a + b) / d
  {
  }

  /** Dividing by a positive number moves across a comparison as a multiplication. */
  lemma DivCompare(x: real, d: real, r: real)
    requires d > 0.0
    ensures (r < x / d) <==> (Mul(r, d) < x)
    ensures (x / d <= r) <==> (x <= Mul(r, d))
    ensures (x / d > 0.0) <==> (x > 0.0)
  {
  }
}

=== FILE: selection.dfy ===
/** Roulette-wheel choice of the next city (lines 96-120): the weight of every
    unvisited city, the denominator, the normalised probabilities and the scan
    for the first cumulative probability above the draw. */
module Selection {
  import opened Wrappers
  import opened Matrices
  import opened Reals

  /** `w[0] + ... + w[k-1]`, added left to right as `denominator` (line 102) and
      the running `sum` (line 115) are. */
  function CumulativeSum(w: seq<real>, k: nat): real
    requires k <= |w|
  {
    if k == 0 then 0.0 else CumulativeSum(w, k - 1) + w[k - 1]
  }

  predicate NonNegative(w: seq<real>) {
    forall j :: 0 <= j < |w| ==> w[j] >= 0.0
  }

  lemma {:induction false} CumulativeSumMonotone(w: seq<real>, k: nat, l: nat)
    requires NonNegative(w) && k <= l <= |w|
    ensures CumulativeSum(w, k) <= CumulativeSum(w, l)
    decreases l
  {
    if k < l {
      CumulativeSumMonotone(w, k, l - 1);
    }
  }

  /** The denominator of line 102 is positive as soon as one weight is. */
  lemma DenominatorPositive(w: seq<real>, j: nat)
    requires NonNegative(w) && j < |w| && w[j] > 0.0
    ensures CumulativeSum(w, |w|) > 0.0
  {
    CumulativeSumMonotone(w, 0, j);
    CumulativeSumMonotone(w, j + 1, |w|);
  }

  /** Line 108: every weight divided by the denominator. Multiplying back
      gives the weight, and a positive denominator keeps the signs. */
  function Normalize(w: seq<real>, denominator: real): (p: seq<real>)
    requires denominator != 0.0
    ensures |p| == |w|
    ensures forall j :: 0 <= j < |w| ==> p[j] * denominator == w[j]
    ensures denominator > 0.0 && NonNegative(w) ==> NonNegative(p)
  {
    seq(|w|, j requires 0 <= j < |w| => w[j] / denominator)
  }

  /** The cumulative probabilities are the cumulative weights over the denominator. */
  lemma {:induction false} CumulativeSumNormalized(w: seq<real>, denominator: real, k: nat)
    requires denominator != 0.0 && k <= |w|
    ensures CumulativeSum(Normalize(w, denominator), k) == CumulativeSum(w, k) / denominator
  {
    if k > 0 {
      CumulativeSumNormalized(w, denominator, k - 1);
      DivAdd(CumulativeSum(w, k - 1), w[k - 1], denominator);
    }
  }

  /** Lines 112-120 from index `j` on: the first `k` whose cumulative
      probability exceeds `r`, or `None` when the scan ends without one
      (the source then leaves `next` undefined). */
  function Roulette(p: seq<real>, r: real, j: nat): (res: Option<nat>)
    requires j <= |p|
    ensures res.Some? ==>
      && j <= res.value < |p|
      && r < CumulativeSum(p, res.value + 1)
      && forall k :: j < k <= res.value ==> CumulativeSum(p, k) <= r
    ensures res.None? ==> forall k :: j < k <= |p| ==> CumulativeSum(p, k) <= r
    decreases |p| - j
  {
    if j == |p| then None
    else if r < CumulativeSum(p, j + 1) then Some(j)
    else Roulette(p, r, j + 1)
  }

  /** The city the wheel picks for draw `r` when the weights are non-negative
      and not all zero: it lands in the slot whose cumulative weight interval
      holds `r * denominator`, and that slot has a positive weight. */
  function Select(w: seq<real>, r: real): (next: nat)
    requires NonNegative(w) && CumulativeSum(w, |w|) > 0.0
    requires 0.0 <= r < 1.0
    ensures next < |w| && w[next] > 0.0
    ensures CumulativeSum(w, next) <= Mul(r, CumulativeSum(w, |w|)) < CumulativeSum(w, next + 1)
    ensures Roulette(Normalize(w, CumulativeSum(w, |w|)), r, 0) == Some(next)
  {
    var denominator := CumulativeSum(w, |w|);
    var p := Normalize(w, denominator);
    RouletteLandsOnWeight(w, r);
    Roulette(p, r, 0).value
  }

  /** The scan of lines 114-120 always sets `next` (exact arithmetic), and on
      a city whose weight is positive. */
  lemma RouletteLandsOnWeight(w: seq<real>, r: real)
    requires NonNegative(w) && CumulativeSum(w, |w|) > 0.0
    requires 0.0 <= r < 1.0
    ensures Roulette(Normalize(w, CumulativeSum(w, |w|)), r, 0).Some?
    ensures var next := Roulette(Normalize(w, CumulativeSum(w, |w|)), r, 0).value;
      && w[next] > 0.0
      && CumulativeSum(w, next) <= Mul(r, CumulativeSum(w, |w|)) < CumulativeSum(w, next + 1)
  {
    var denominator := CumulativeSum(w, |w|);
    var p := Normalize(w, denominator);
    WheelCoversDraw(w, denominator, r);
    var next := Roulette(p, r, 0).value;
    CumulativeSumNormalized(w, denominator, next);
    CumulativeSumNormalized(w, denominator, next + 1);
    DrawInSlot(CumulativeSum(w, next), CumulativeSum(w, next + 1), denominator, r);
  }

  /** The last cumulative probability is 1, above every draw, so the scan stops. */
  lemma WheelCoversDraw(w: seq<real>, denominator: real, r: real)
    requires denominator > 0.0 && denominator == CumulativeSum(w, |w|)
    requires 0.0 <= r < 1.0
    ensures Roulette(Normalize(w, denominator), r, 0).Some?
  {
    var p := Normalize(w, denominator);
    CumulativeSumNormalized(w, denominator, |w|);
    assert CumulativeSum(p, |w|) == 1.0;
    if Roulette(p, r, 0).None? {
      assert false;
    }
  }

  /** A draw between two cumulative probabilities, read back in weights. */
  lemma DrawInSlot(lower: real, upper: real, denominator: real, r: real)
    requires denominator > 0.0 && 0.0 <= r
    requires lower / denominator <= r < upper / denominator
    ensures lower <= Mul(r, denominator) < upper
  {
    DivCompare(lower, denominator, r);
    DivCompare(upper, denominator, r);
  }
}

=== FILE: tour.dfy ===
/** A tour and its closed length (lines 134-139 of `antColonyOptimizationTSP`). */
module Tours {
  import opened Matrices
  import opened Cities

  /** A finished ant's path with the length the source computed for it. */
  datatype Tour = Tour(path: seq<nat>, length: real)

  predicate InRange(path: seq<nat>, n: nat) {
    forall k :: 0 <= k < |path| ==> path[k] < n
  }

  /** Sum of `d[path[k]][path[k+1]]` over consecutive pairs; never negative
      over a non-negative table. */
  function OpenLength(d: Matrix, n: nat, path: seq<nat>): (r: real)
    requires IsSquare(d, n) && InRange(path, n)
    ensures AllAtLeast(d, n, 0.0) ==> r >= 0.0
    decreases |path|
  {
    if |path| <= 1 then 0.0 else d[path[0]][path[1]] + OpenLength(d, n, path[1..])
  }

  /** The open length plus the closing edge from the last city back to the
      first: a single city's tour is its own loop, and no tour over a
      non-negative table is negative. */
  function TourLength(d: Matrix, n: nat, path: seq<nat>): (r: real)
    requires IsSquare(d, n) && InRange(path, n) && |path| >= 1
    ensures |path| == 1 ==> r == d[path[0]][path[0]]
    ensures AllAtLeast(d, n, 0.0) ==> r >= 0.0
  {
    OpenLength(d, n, path) + d[path[|path| - 1]][path[0]]
  }

  /** A tour is valid when its path is a permutation of the cities and its
      length is the closed length of that path. */
  predicate ValidTour(t: Tour, d: Matrix, n: nat) {
    IsSquare(d, n) && n >= 1 && IsPermutation(t.path, n) && t.length == TourLength(d, n, t.path)
  }

  function Reverse(s: seq<nat>): (r: seq<nat>)
    ensures |r| == |s|
    ensures forall k :: 0 <= k < |s| ==> r[k] == s[|s| - 1 - k]
  {
    if |s| == 0 then [] else Reverse(s[1..]) + [s[0]]
  }

  /** Appending a city adds the edge from the old last city to it. */
  lemma {:induction false} OpenLengthAppend(d: Matrix, n: nat, s: seq<nat>, c: nat)
    requires IsSquare(d, n) && InRange(s, n) && c < n && |s| >= 1
    ensures InRange(s + [c], n)
    ensures OpenLength(d, n, s + [c]) == OpenLength(d, n, s) + d[s[|s| - 1]][c]
    decreases |s|
  {
    assert InRange(s + [c], n);
    if |s| > 1 {
      assert (s + [c])[1..] == s[1..] + [c];
      OpenLengthAppend(d, n, s[1..], c);
    }
  }

  /** Walking the path backwards crosses the same edges in the other direction. */
  lemma {:induction false} OpenLengthReverse(d: Matrix, n: nat, s: seq<nat>)
    requires Symmetric(d, n) && InRange(s, n)
    ensures InRange(Reverse(s), n)
    ensures OpenLength(d, n, Reverse(s)) == OpenLength(d, n, s)
    decreases |s|
  {
    if |s| > 1 {
      OpenLengthReverse(d, n, s[1..]);
      var r := Reverse(s[1..]);
      assert Reverse(s) == r + [s[0]];
      OpenLengthAppend(d, n, r, s[0]);
      assert r[|r| - 1] == s[1];
    }
  }

  /** With a symmetric table, a tour and its reverse have the same closed length. */
  lemma TourLengthReverse(d: Matrix, n: nat, path: seq<nat>)
    requires Symmetric(d, n) && InRange(path, n) && |path| >= 1
    ensures InRange(Reverse(path), n)
    ensures TourLength(d, n, Reverse(path)) == TourLength(d, n, path)
  {
    OpenLengthReverse(d, n, path);
  }

  /** With two cities the only tours are `[0, 1]` and `[1, 0]`, both `2 * d[0][1]` long. */
  lemma TwoCityTourLength(d: Matrix, path: seq<nat>)
    requires Symmetric(d, 2) && IsPermutation(path, 2)
    ensures TourLength(d, 2, path) == 2.0 * d[0][1]
  {
    assert |path[1..]| == 1;
    assert OpenLength(d, 2, path) == d[path[0]][path[1]];
    if path[0] == 0 {
      assert path[1] == 1;
    } else {
      assert path[0] == 1 && path[1] == 0;
    }
  }
}

=== FILE: wrappers.dfy ===
/** Option and Result, used for the values the source leaves `undefined`
    (no best tour yet) and for the one input error the host reports. */
module Wrappers {

  datatype Option<+T> = None | Some(value: T)

  datatype Result<+R, +E> = Success(value: R) | Failure(error: E)
}
